=== FILE: README.md ===
# MVCForum topic repository — a Dafny model

This project models the query and paging logic of MVCForum's `TopicRepository`
(the data-access class behind the forum's topic lists) over an in-memory store.
The store is a sequence of immutable `Topic` values inside a `Context` that
stands for one unit of work. The context holds the database rows, which every
query reads, and the topics added in this unit of work and not yet committed.
It also records the ids the unit of work tracks and the ids marked modified.
A small `Commit` function stands for the unit of work's commit. It turns the
queued topics into rows, so that `Add` can be related to the queries.

Every repository method is a short pipeline of LINQ operators: `Where`,
`OrderByDescending`/`ThenByDescending`, `Skip`, `Take`, `FirstOrDefault`,
`SingleOrDefault` and `Count`. Each pipeline is followed by the shared clamp of
a paged list's total. The modules follow that structure:

- `Wrappers` — `Option`, `Result` and the two .NET exception kinds the code can raise.
- `Linq` — the sequence operators, given the semantics LINQ to Objects has. `Skip`
  and `Take` clamp negative and oversized counts. The program runs them through
  Entity Framework's query provider instead, which may reject a negative count. `SingleOrDefault` fails on a second match.
  `ContainsSubstring` is ordinal `String.Contains`.
- `Topics` — the `Topic` entity and the three orderings (views; creation date;
  sticky first, then creation date). `OrderByDescending` is an insertion sort
  proved to yield a sorted permutation. No contract fixes the order among equal
  keys, because the store does not guarantee one.
- `Paging` — `PagedList`, the 32-bit skip count `(pageIndex - 1) * pageSize`
  (C# `int` arithmetic is unchecked, so it wraps), the total clamp, and what
  Skip-then-Take and Take-then-Skip select.
- `TopicRepository` — the repository's operations and the properties relating them.
- `TopicRepositoryFixes` — corrected versions of the operations listed under
  Findings, each next to a lemma showing the code as written going wrong.

The code does not do what its comments and names suggest, and the model follows the code:

- `Update` throws whenever anything is tracked, not only when the same id is tracked.
- `GetPagedTopicsAll` and `GetPagedTopicsByTag` return an empty list for every page after the first whose skip count does not overflow.
- The paged total counts the page, not the matching topics.

## Model

| member | source | states |
|---|---|---|
| TopicRepository.GetAll | MVCForum.Data/Repositories/TopicRepository.cs:25-28 | lists every stored topic as often as it is stored; an id is listed exactly when Get finds it |
| TopicRepository.TopicCount | MVCForum.Data/Repositories/TopicRepository.cs:204-207 | the count equals the number of topics GetAll lists |
| TopicRepository.GetHighestViewedTopics | MVCForum.Data/Repositories/TopicRepository.cs:30-36 | returns min(n, store size) topics (none for n <= 0, the clamp LINQ to Objects applies), drawn from the store, most viewed first, each viewed at least as often as every topic left out |
| TopicRepository.Add | MVCForum.Data/Repositories/TopicRepository.cs:38-43 | the topic gets the fresh id and keeps every other field; it is queued, after the earlier queued topics, which are unchanged; the database rows do not change; the new id is tracked; unique ids stay unique |
| TopicRepository.Get | MVCForum.Data/Repositories/TopicRepository.cs:45-48 | None exactly when no topic has the id; otherwise the first stored topic with that id |
| TopicRepository.Commit | MVCForum.Data/Repositories/TopicRepository.cs:60 | the queued topics become rows after the existing ones, nothing stays queued, and the id set of the rows grows by the queued ids |
| TopicRepository.AddIsInvisibleUntilCommit | MVCForum.Data/Repositories/TopicRepository.cs:38-48 | in the unit of work that added it, Get does not find the new topic and TopicCount does not count it |
| TopicRepository.AddThenGet | MVCForum.Data/Repositories/TopicRepository.cs:38-48 | after Add and commit, Get of the new id returns the added topic |
| TopicRepository.AddKeepsOtherLookups | MVCForum.Data/Repositories/TopicRepository.cs:38-48 | after Add and commit, Get of any other id answers as a commit without the Add would |
| TopicRepository.AddGrowsCount | MVCForum.Data/Repositories/TopicRepository.cs:38-43 | after commit, Add has raised TopicCount by exactly one |
| TopicRepository.Update | MVCForum.Data/Repositories/TopicRepository.cs:55-63 | throws ApplicationException exactly when the tracked set is non-empty, whatever the item's id; otherwise the rows and the queued topics are unchanged, the item becomes the one tracked entity and is marked modified |
| TopicRepository.UpdateAfterAddThrows | MVCForum.Data/Repositories/TopicRepository.cs:38-63 | in a unit of work that has added a topic, every Update throws |
| TopicRepository.GetRecentTopics | MVCForum.Data/Repositories/TopicRepository.cs:65-85 | at most pageSize items, drawn from the store, newest first; the total is min(item count, amountToTake); pageIndex and pageSize are echoed |
| TopicRepository.RecentTopicsIsPage | MVCForum.Data/Repositories/TopicRepository.cs:69-73 | for pageIndex >= 1, pageSize >= 0 and no overflow, the items are exactly the window at (pageIndex-1)*pageSize of the newest-first ordering |
| TopicRepository.RecentTopicsPageWrapsToFirst | MVCForum.Data/Repositories/TopicRepository.cs:71 | the 32-bit skip count wraps, so page 65537 of size 65536 returns page 1 |
| TopicRepository.GetRecentRssTopics | MVCForum.Data/Repositories/TopicRepository.cs:87-95 | returns min(n, store size) topics (none for n <= 0, the clamp LINQ to Objects applies), drawn from the store, newest first, each at least as new as every topic left out |
| TopicRepository.GetTopicsByUser | MVCForum.Data/Repositories/TopicRepository.cs:97-104 | exactly the member's topics, each as often as in the store, in store order |
| TopicRepository.GetAllTopicsByCategory | MVCForum.Data/Repositories/TopicRepository.cs:106-112 | exactly the category's topics, each as often as in the store, in store order |
| TopicRepository.GetPagedTopicsByCategory | MVCForum.Data/Repositories/TopicRepository.cs:114-136 | at most pageSize items, all drawn from the store and in the category; every sticky item precedes every non-sticky one, newest first within each group; the total is min(item count, amountToTake) |
| TopicRepository.PagedTopicsByCategoryIsPage | MVCForum.Data/Repositories/TopicRepository.cs:118-124 | for pageIndex >= 1, pageSize >= 0 and no overflow, the items are exactly the requested window of the category's sticky-then-newest ordering |
| TopicRepository.GetPagedTopicsAll | MVCForum.Data/Repositories/TopicRepository.cs:138-158 | at most pageSize items, sticky first then newest; page 1 holds min(pageSize, store size) topics, each ranking at least as high as every topic left out; every later page (no overflow) is empty with total 0 when amountToTake >= 0; the total is min(item count, amountToTake) |
| TopicRepository.GetRssTopicsByCategory | MVCForum.Data/Repositories/TopicRepository.cs:160-167 | returns min(n, category size) topics of the category, newest first, each at least as new as every category topic left out |
| TopicRepository.GetPagedTopicsByTag | MVCForum.Data/Repositories/TopicRepository.cs:169-190 | every item carries the tag; sticky first then newest; page 1 holds min(pageSize, tagged count) topics, each ranking at least as high as every tagged topic left out; later pages (no overflow) are empty; the total is min(item count, amountToTake) |
| TopicRepository.GetTopicBySlug | MVCForum.Data/Repositories/TopicRepository.cs:192-195 | None exactly when no topic has the slug; the topic when exactly one stored topic has it; InvalidOperationException exactly when two positions share the slug |
| TopicRepository.UniqueSlugsNeverThrow | MVCForum.Data/Repositories/TopicRepository.cs:192-195 | a store with unique slugs never makes GetTopicBySlug throw |
| TopicRepository.GetTopicBySlugLike | MVCForum.Data/Repositories/TopicRepository.cs:197-202 | exactly the topics whose slug contains the text, each as often as in the store, in store order |
| TopicRepository.GetSolvedTopicsByMember | MVCForum.Data/Repositories/TopicRepository.cs:214-220 | exactly the member's topics with at least one post marked as the solution, each as often as in the store, in store order |
| Linq.Take | MVCForum.Data/Repositories/TopicRepository.cs:34 | the first n elements in order: none for n <= 0, all when n exceeds the length; the clamp of a negative count is the LINQ to Objects choice described under Left out; also used at :72, :92, :123, :144, :165, :176 |
| Linq.Skip | MVCForum.Data/Repositories/TopicRepository.cs:71 | the elements after the first n, in order: all for n <= 0, none when n exceeds the length; the clamp of a negative count is the LINQ to Objects choice described under Left out; also used at :122, :145, :177 |
| Paging.ToPagedList | MVCForum.Data/Repositories/TopicRepository.cs:77-84 | the paged list holds the results unchanged, echoes pageIndex and pageSize, and reports the result count clamped to amountToTake; the same construction ends :135, :157 and :189 |
| Paging.ClampTotal | MVCForum.Data/Repositories/TopicRepository.cs:77-81 | the total is the smaller of the result count and amountToTake |
| Paging.SkipCount | MVCForum.Data/Repositories/TopicRepository.cs:71 | the unchecked 32-bit skip count equals (pageIndex-1)*pageSize whenever that product fits in an int, negative products included |
| Paging.SkipCountWraps | MVCForum.Data/Repositories/TopicRepository.cs:71 | (65537-1)*65536 wraps to a skip count of 0 |
| Paging.SkipThenTakeIsPage | MVCForum.Data/Repositories/TopicRepository.cs:122-123 | Skip((pageIndex-1)*pageSize) then Take(pageSize) selects exactly the requested page (pageIndex >= 1, pageSize >= 0, no overflow) |
| Paging.TakeThenSkipOnlyFirstPage | MVCForum.Data/Repositories/TopicRepository.cs:144-145 | Take(pageSize) then Skip((pageIndex-1)*pageSize) gives the first pageSize elements on page 1 and nothing on later pages (no overflow) |
| Topics.OrderByDescending | MVCForum.Data/Repositories/TopicRepository.cs:120-121 | the ordering is a permutation of its input, sorted by the key descending |
| Topics.StickyOrderIsPartition | MVCForum.Data/Repositories/TopicRepository.cs:120-121 | sorted by IsSticky then CreateDate descending holds exactly when sticky topics precede non-sticky ones and each group is newest first |
| Topics.TakeOfSortedIsTop | MVCForum.Data/Repositories/TopicRepository.cs:33-34 | a prefix of a sorted sequence is drawn from it, sorted, and ranks at least as high as everything left out |
| Topics.SortedSubsequence | MVCForum.Data/Repositories/TopicRepository.cs:173-175 | filtering after ordering keeps the order |
| Linq.FirstOrDefault | MVCForum.Data/Repositories/TopicRepository.cs:47 | None exactly when nothing matches, otherwise the first match |
| Linq.SingleOrDefault | MVCForum.Data/Repositories/TopicRepository.cs:194 | None when nothing matches, the unique match, or InvalidOperationException exactly when two positions match |
| Linq.Where | MVCForum.Data/Repositories/TopicRepository.cs:101 | keeps exactly the matching elements with their multiplicities, in their original order |
| Linq.WhereHasTwo | MVCForum.Data/Repositories/TopicRepository.cs:194 | Where finds two or more matches exactly when two distinct positions match |
| Linq.ContainsSubstringAt | MVCForum.Data/Repositories/TopicRepository.cs:200 | the recursive substring test agrees with "sub is a prefix of s from some position on" |
| TopicRepositoryFixes.GetPagedTopicsAllFixed | MVCForum.Data/Repositories/TopicRepository.cs:141-146 | with Skip before Take, any page (no overflow) is exactly the requested window of the sticky-then-newest ordering |
| TopicRepositoryFixes.PagedTopicsAllSecondPageEmpty | MVCForum.Data/Repositories/TopicRepository.cs:144-145 | with two topics and page size 1, page 2 as written is empty while the corrected query returns the second topic |
| TopicRepositoryFixes.GetPagedTopicsByTagFixed | MVCForum.Data/Repositories/TopicRepository.cs:172-178 | with Skip before Take, any page (no overflow) is exactly the requested window of the tagged topics in sticky-then-newest order |
| TopicRepositoryFixes.PagedTopicsByTagSecondPageEmpty | MVCForum.Data/Repositories/TopicRepository.cs:176-177 | with two tagged topics and page size 1, page 2 as written is empty while the corrected query returns the second |
| TopicRepositoryFixes.GetRecentTopicsFixed | MVCForum.Data/Repositories/TopicRepository.cs:75-81 | same items; the total is min(number of topics, amountToTake) |
| TopicRepositoryFixes.RecentTopicsTotalUnderstates | MVCForum.Data/Repositories/TopicRepository.cs:77-81 | with two topics and page size 1, the total as written is 1 and the corrected total is 2 |
| TopicRepositoryFixes.UpdateFixed | MVCForum.Data/Repositories/TopicRepository.cs:57-58 | throws exactly when the item's id is already tracked; otherwise marks it modified and tracked |
| TopicRepositoryFixes.UpdateRejectsUnrelatedItem | MVCForum.Data/Repositories/TopicRepository.cs:58-60 | tracking topic 1 makes Update of topic 2 throw as written, while the corrected check accepts it |

## Left out

- `Delete`: removal is performed by the ORM and takes effect at commit. Both live outside the repository.
- `TagController.PopularTags`: it only opens a unit of work and passes the popular tags of an external tag service to a partial view. It has no logic of its own.
- Entity Framework mechanics: SQL translation, lazy evaluation and entity states. The tracked entities are a set of ids, and "modified" is a second set of ids. Commit is modelled only as far as turning queued topics into rows.
- `Guid.NewGuid()`: the new id is a parameter of `Add`, required to be absent from the rows and the queued topics.
- TopicRepository.Add: the program sets the id on the caller's own object and returns that object. The model has no object identity, so it returns a copy with the new id.
- TopicRepository.Update: records only the id as modified. In the program, the item's new field values reach the store at commit. The model's `Commit` does not write them.
- TopicRepository.Commit: writes only the queued (added) topics. It does not apply the field values of entities marked modified, so after `Update` and `Commit`, `Get` still returns the old row. It leaves `modified` and `tracked` as they are. The model has no entity states to reset, and no query reads those sets.
- TopicRepository.Update: in the program, every query that returns topics attaches them to the context's tracked entities. So `Get` followed by `Update` of the same topic always throws there. The model's queries leave the tracked set unchanged, and only `Add` and `Update` change it.
- TopicRepository.GetTopicBySlugLike: models ordinal `String.Contains`. The database's LIKE collation (case folding, for one) is not modelled.
- TopicRepository.GetTopicBySlug, TopicRepository.GetPagedTopicsByTag: slug equality and tag matching are ordinal string equality. The program compares in the database's collation. Under a case-insensitive collation, two slugs that differ only in case make `SingleOrDefault` throw in the program but not in the model.
- Order among equal sort keys: the store does not guarantee one. The contracts of the sort and of the single queries state sortedness and permutation only; the insertion sort is one admissible order. The page lemmas go further, as the next line says.
- TopicRepository.RecentTopicsIsPage, TopicRepository.PagedTopicsByCategoryIsPage: these state each page as a window of one fixed ordering, the model's insertion sort. Every call orders tied topics the same way, so the model's pages never overlap and never skip a topic. In the program each page is a separate query, and the database may order topics with equal keys differently each time. Tied topics can then repeat across pages or be missed. The same holds for the page lemmas of `TopicRepositoryFixes`.
- Page properties (the exact window, empty later pages) are stated for pageIndex >= 1, pageSize >= 0, and a skip count that fits in an int. Outside that range, overflow wraps as in C#. Negative counts are clamped as LINQ to Objects does: they skip or take nothing. This is a modelling choice, because Entity Framework's query provider may reject a negative count instead. The contracts only bound the result there.
- Posts are represented only by their "is solution" flags. Categories, users and tags are represented only by their ids or text.

## Findings

| source | as written | input that shows it | evidently intended | confidence | as-written member | corrected member |
|---|---|---|---|---|---|---|
| MVCForum.Data/Repositories/TopicRepository.cs:144-145 | `Take(pageSize)` before `Skip((pageIndex-1)*pageSize)` | two topics, pageIndex 2, pageSize 1: the page is empty | Skip then Take, as in `GetPagedTopicsByCategory` | high (not executed) | TopicRepositoryFixes.PagedTopicsAllSecondPageEmpty | TopicRepositoryFixes.GetPagedTopicsAllFixed |
| MVCForum.Data/Repositories/TopicRepository.cs:176-177 | `Take(pageSize)` before `Skip((pageIndex-1)*pageSize)` | two topics with the tag, pageIndex 2, pageSize 1: the page is empty | Skip then Take | high (not executed) | TopicRepositoryFixes.PagedTopicsByTagSecondPageEmpty | TopicRepositoryFixes.GetPagedTopicsByTagFixed |
| MVCForum.Data/Repositories/TopicRepository.cs:77-81 | total = page item count, clamped to amountToTake | two topics, pageIndex 1, pageSize 1, amountToTake 100: total 1 | number of topics, clamped to amountToTake | medium (not executed) | TopicRepositoryFixes.RecentTopicsTotalUnderstates | TopicRepositoryFixes.GetRecentTopicsFixed |
| MVCForum.Data/Repositories/TopicRepository.cs:58 | `Local.Select(x => x.Id == item.Id).Any()` is true whenever anything is tracked | tracked ids {1}, item id 2: Update throws | `Any(x => x.Id == item.Id)`: throw only for the same id | high (not executed) | TopicRepositoryFixes.UpdateRejectsUnrelatedItem | TopicRepositoryFixes.UpdateFixed |

=== FILE: linq.dfy ===
/**
  The standard sequence operators the repository composes its queries from,
  with the semantics of LINQ to Objects: Where keeps store order, Skip and
  Take clamp negative and oversized counts instead of failing,
  FirstOrDefault answers the first match, SingleOrDefault fails on a second.
 */
module Linq {
  import opened Wrappers

  function Min(a: int, b: int): int
  {
    if a <= b then a else b
  }

  /** r can be obtained from s by deleting elements: r keeps s's order. */
  predicate IsSubsequence<T(==)>(r: seq<T>, s: seq<T>)
    decreases |s|
  {
    if |r| == 0 then true
    else if |s| == 0 then false
    else (r[0] == s[0] && IsSubsequence(r[1..], s[1..])) || IsSubsequence(r, s[1..])
  }

  lemma {:induction false} SubsequenceMembers<T>(r: seq<T>, s: seq<T>)
    requires IsSubsequence(r, s)
    ensures forall x :: x in r ==> x in s
    decreases |s|
  {
    if |r| > 0 {
      if r[0] == s[0] && IsSubsequence(r[1..], s[1..]) {
        SubsequenceMembers(r[1..], s[1..]);
        assert r == [r[0]] + r[1..];
      } else {
        SubsequenceMembers(r, s[1..]);
      }
    }
  }

  lemma {:induction false} SubsequenceTransitive<T>(a: seq<T>, b: seq<T>, c: seq<T>)
    requires IsSubsequence(a, b) && IsSubsequence(b, c)
    ensures IsSubsequence(a, c)
    decreases |c|
  {
    if |a| > 0 {
      if b[0] == c[0] && IsSubsequence(b[1..], c[1..]) {
        if a[0] == b[0] && IsSubsequence(a[1..], b[1..]) {
          SubsequenceTransitive(a[1..], b[1..], c[1..]);
        } else {
          SubsequenceTransitive(a, b[1..], c[1..]);
        }
      } else {
        SubsequenceTransitive(a, b, c[1..]);
      }
    }
  }

  /** Where's contract, as a predicate on a candidate result r. */
  ghost predicate FiltersTo<T(!new)>(r: seq<T>, s: seq<T>, p: T -> bool)
  {
    && IsSubsequence(r, s)
    && (forall x :: multiset(r)[x] == if p(x) then multiset(s)[x] else 0)
    && (forall x :: x in r <==> x in s && p(x))
    && (forall k :: 0 <= k < |r| ==> p(r[k]))
    && multiset(r) <= multiset(s)
    && |r| <= |s|
  }

  /** Enumerable.Where: exactly the elements satisfying p, in their original order. */
  function Where<T(==,!new)>(s: seq<T>, p: T -> bool): (r: seq<T>)
    ensures FiltersTo(r, s, p)
  {
    if |s| == 0 then []
    else
      var rest := Where(s[1..], p);
      if p(s[0]) then
        WhereKeepsHead(s, p, rest);
        [s[0]] + rest
      else
        WhereDropsHead(s, p, rest);
        rest
  }

  lemma WhereKeepsHead<T(!new)>(s: seq<T>, p: T -> bool, rest: seq<T>)
    requires |s| > 0 && p(s[0]) && FiltersTo(rest, s[1..], p)
    ensures FiltersTo([s[0]] + rest, s, p)
  {
    var r := [s[0]] + rest;
    assert s == [s[0]] + s[1..];
    assert r[1..] == rest;
    assert multiset(r) == multiset{s[0]} + multiset(rest);
    assert multiset(s) == multiset{s[0]} + multiset(s[1..]);
  }

  lemma WhereDropsHead<T(!new)>(s: seq<T>, p: T -> bool, rest: seq<T>)
    requires |s| > 0 && !p(s[0]) && FiltersTo(rest, s[1..], p)
    ensures FiltersTo(rest, s, p)
  {
    assert s == [s[0]] + s[1..];
    assert multiset(s) == multiset{s[0]} + multiset(s[1..]);
  }

  /** Two distinct positions of s satisfy p. */
  ghost predicate TwoMatches<T>(s: seq<T>, p: T -> bool)
  {
    exists i, j :: 0 <= i < j < |s| && p(s[i]) && p(s[j])
  }

  /** Where finds at least two matches exactly when two distinct positions match. */
  lemma {:induction false} WhereHasTwo<T(!new)>(s: seq<T>, p: T -> bool)
    ensures |Where(s, p)| >= 2 <==> TwoMatches(s, p)
    decreases |s|
  {
    if |s| > 0 {
      WhereHasTwo(s[1..], p);
      if p(s[0]) {
        WhereHasTwoHeadMatches(s, p);
      } else {
        WhereHasTwoHeadFails(s, p);
      }
    }
  }

  lemma WhereHasTwoHeadMatches<T(!new)>(s: seq<T>, p: T -> bool)
    requires |s| > 0 && p(s[0])
    ensures |Where(s, p)| >= 2 <==> TwoMatches(s, p)
  {
    var t := s[1..];
    assert Where(s, p) == [s[0]] + Where(t, p);
    if |Where(s, p)| >= 2 {
      var x := Where(t, p)[0];
      assert x in Where(t, p);
      var j :| 0 <= j < |t| && t[j] == x;
      assert p(s[0]) && p(s[j + 1]);
    }
    if TwoMatches(s, p) {
      var i, j :| 0 <= i < j < |s| && p(s[i]) && p(s[j]);
      assert t[j - 1] in Where(t, p);
    }
  }

  lemma WhereHasTwoHeadFails<T(!new)>(s: seq<T>, p: T -> bool)
    requires |s| > 0 && !p(s[0])
    requires |Where(s[1..], p)| >= 2 <==> TwoMatches(s[1..], p)
    ensures |Where(s, p)| >= 2 <==> TwoMatches(s, p)
  {
    assert |Where(s, p)| == |Where(s[1..], p)|;
    TwoMatchesSkipsFailingHead(s, p);
  }

  lemma TwoMatchesSkipsFailingHead<T>(s: seq<T>, p: T -> bool)
    requires |s| > 0 && !p(s[0])
    ensures TwoMatches(s, p) <==> TwoMatches(s[1..], p)
  {
    var t := s[1..];
    if TwoMatches(s, p) {
      var i, j :| 0 <= i < j < |s| && p(s[i]) && p(s[j]);
      assert t[i - 1] == s[i] && t[j - 1] == s[j];
    }
    if TwoMatches(t, p) {
      var i, j :| 0 <= i < j < |t| && p(t[i]) && p(t[j]);
      assert s[i + 1] == t[i] && s[j + 1] == t[j];
    }
  }

  /** Enumerable.Take: the first n elements, none when n <= 0, all when n >= |s|. */
  function Take<T>(s: seq<T>, n: int): (r: seq<T>)
    ensures |r| == if n <= 0 then 0 else Min(n, |s|)
    ensures forall k :: 0 <= k < |r| ==> r[k] == s[k]
    ensures multiset(r) <= multiset(s)
  {
    if n <= 0 then []
    else if n >= |s| then s
    else
      assert s == s[..n] + s[n..];
      s[..n]
  }

  /** Enumerable.Skip: drops the first n elements, none when n <= 0, all when n >= |s|. */
  function Skip<T>(s: seq<T>, n: int): (r: seq<T>)
    ensures |r| == if n <= 0 then |s| else |s| - Min(n, |s|)
    ensures forall k :: 0 <= k < |r| ==> r[k] == s[|s| - |r| + k]
    ensures multiset(r) <= multiset(s)
  {
    if n <= 0 then s
    else if n >= |s| then []
    else
      assert s == s[..n] + s[n..];
      s[n..]
  }

  /** Position of the first element satisfying p. */
  function FirstIndex<T>(s: seq<T>, p: T -> bool): (r: Option<nat>)
    ensures r.None? <==> forall k :: 0 <= k < |s| ==> !p(s[k])
    ensures r.Some? ==> r.value < |s| && p(s[r.value]) && forall j :: 0 <= j < r.value ==> !p(s[j])
  {
    if |s| == 0 then None
    else if p(s[0]) then Some(0)
    else
      match FirstIndex(s[1..], p)
      case None => None
      case Some(k) => Some(k + 1)
  }

  /** Enumerable.FirstOrDefault: the first match, or null (None) when nothing matches. */
  function FirstOrDefault<T>(s: seq<T>, p: T -> bool): (r: Option<T>)
    ensures r.None? <==> forall k :: 0 <= k < |s| ==> !p(s[k])
    ensures r.Some? ==> exists k :: 0 <= k < |s| && s[k] == r.value && p(r.value) && forall j :: 0 <= j < k ==> !p(s[j])
  {
    match FirstIndex(s, p)
    case None => None
    case Some(k) => Some(s[k])
  }

  /**
    Enumerable.SingleOrDefault: null (None) when nothing matches, the match
    when exactly one element matches, an InvalidOperationException otherwise.
   */
  function SingleOrDefault<T(==,!new)>(s: seq<T>, p: T -> bool): (r: Result<Option<T>, Exception>)
    ensures r == Success(None) <==> forall k :: 0 <= k < |s| ==> !p(s[k])
    ensures r.Success? && r.value.Some? ==>
              exists k :: 0 <= k < |s| && s[k] == r.value.value && p(s[k])
                          && forall j :: 0 <= j < |s| && j != k ==> !p(s[j])
    ensures r.Failure? <==> TwoMatches(s, p)
    ensures r.Failure? ==> r.error == InvalidOperationException
  {
    var matches := Where(s, p);
    WhereHasTwo(s, p);
    if |matches| == 0 then
      assert forall k :: 0 <= k < |s| ==> !p(s[k]) by {
        forall k | 0 <= k < |s| ensures !p(s[k]) {
          assert s[k] in s;
        }
      }
      Success(None)
    else if |matches| == 1 then
      SingleMatch(s, p);
      Success(Some(matches[0]))
    else
      Failure(InvalidOperationException)
  }

  lemma SingleMatch<T(!new)>(s: seq<T>, p: T -> bool)
    requires |Where(s, p)| == 1
    ensures exists k :: 0 <= k < |s| && s[k] == Where(s, p)[0] && p(s[k])
                        && forall j :: 0 <= j < |s| && j != k ==> !p(s[j])
  {
    var m := Where(s, p);
    WhereHasTwo(s, p);
    assert m[0] in m;
    var k :| 0 <= k < |s| && s[k] == m[0];
    forall j | 0 <= j < |s| && j != k
      ensures !p(s[j])
    {
      var pj, pk := p(s[j]), p(s[k]);
      if j < k {
        assert !(pj && pk);
      } else {
        assert !(pk && pj);
      }
    }
  }

  /** String.Contains (ordinal): sub occurs in s; the empty string occurs everywhere. */
  predicate ContainsSubstring(s: string, sub: string)
    decreases |s|
  {
    sub <= s || (|s| > 0 && ContainsSubstring(s[1..], sub))
  }

  /** ContainsSubstring agrees with the positional definition of an occurrence. */
  lemma {:induction false} ContainsSubstringAt(s: string, sub: string)
    ensures ContainsSubstring(s, sub) <==> exists k :: 0 <= k <= |s| && sub <= s[k..]
    decreases |s|
  {
    if sub <= s {
      assert sub <= s[0..];
    } else if |s| == 0 {
      forall k | 0 <= k <= |s| ensures !(sub <= s[k..]) {
        assert s[k..] == s;
      }
    } else {
      ContainsSubstringAt(s[1..], sub);
      if ContainsSubstring(s[1..], sub) {
        var k :| 0 <= k <= |s[1..]| && sub <= s[1..][k..];
        assert s[1..][k..] == s[k + 1..];
      }
      if exists k :: 0 <= k <= |s| && sub <= s[k..] {
        var k :| 0 <= k <= |s| && sub <= s[k..];
        assert k != 0;
        assert s[1..][k - 1..] == s[k..];
      }
    }
  }
}

=== FILE: paging.dfy ===
/**
  The paged result shape and the arithmetic every paged query shares: the
  32-bit skip count (pageIndex - 1) * pageSize and the clamp of the
  reported total to amountToTake.
 */
module Paging {
  import opened Linq

  const MinInt32: int := -0x8000_0000
  const MaxInt32: int := 0x7fff_ffff

  /** A C# int. */
  type Int32 = x: int | -0x8000_0000 <= x <= 0x7fff_ffff

  /** The unchecked two's-complement reduction C# applies to an int result. */
  function Wrap32(x: int): (r: Int32)
    ensures (r - x) % 0x1_0000_0000 == 0
    ensures MinInt32 <= x <= MaxInt32 ==> r == x
  {
    (x + 0x8000_0000) % 0x1_0000_0000 - 0x8000_0000
  }

  /**
    The Skip argument (pageIndex - 1) * pageSize, evaluated in unchecked
    32-bit arithmetic; it is the mathematical product whenever that fits.
   */
  function SkipCount(pageIndex: Int32, pageSize: Int32): (r: Int32)
    ensures MinInt32 <= (pageIndex - 1) * pageSize <= MaxInt32 ==> r == (pageIndex - 1) * pageSize
  {
    Wrap32(Wrap32(pageIndex - 1) * pageSize)
  }

  /** Page 65537 of size 65536 wraps around to skipping nothing: it answers page 1. */
  lemma SkipCountWraps()
    ensures SkipCount(65537, 65536) == 0
  {
    assert 65536 * 65536 == 0x1_0000_0000;
  }

  /** The paged list the repository hands back: one page of items plus the page request and a total. */
  datatype PagedList<T> = PagedList(items: seq<T>, pageIndex: Int32, pageSize: Int32, total: int)

  /**
    The shared total computation: the number of results, lowered to
    amountToTake when it is larger. The result is the smaller of the two.
   */
  function ClampTotal(count: nat, amountToTake: Int32): (total: int)
    ensures total <= count && total <= amountToTake
    ensures total == count || total == amountToTake
  {
    if count > amountToTake then amountToTake else count
  }

  /** The reported total is the item count clamped to amountToTake. */
  predicate TotalIsClamped<T>(r: PagedList<T>, amountToTake: int)
  {
    r.total == Min(|r.items|, amountToTake)
  }

  /** Wraps query results into a paged list whose total is the clamped result count. */
  function ToPagedList<T>(results: seq<T>, pageIndex: Int32, pageSize: Int32, amountToTake: Int32): (r: PagedList<T>)
    ensures r.items == results && r.pageIndex == pageIndex && r.pageSize == pageSize
    ensures TotalIsClamped(r, amountToTake)
  {
    PagedList(results, pageIndex, pageSize, ClampTotal(|results|, amountToTake))
  }

  /**
    items is the window of ordered that starts at position offset and holds
    at most pageSize elements.
   */
  ghost predicate IsWindow<T>(items: seq<T>, ordered: seq<T>, offset: nat, pageSize: nat)
  {
    && |items| == (if offset >= |ordered| then 0 else Min(pageSize, |ordered| - offset))
    && forall k :: 0 <= k < |items| ==> offset + k < |ordered| && items[k] == ordered[offset + k]
  }

  /**
    items is page pageIndex (counted from 1) of size pageSize of ordered:
    the elements at positions (pageIndex - 1) * pageSize onwards, as many
    as the page holds and ordered still has.
   */
  ghost predicate IsPage<T>(items: seq<T>, ordered: seq<T>, pageIndex: int, pageSize: int)
    requires 1 <= pageIndex && 0 <= pageSize
  {
    PageOffsetIsNat(pageIndex, pageSize);
    IsWindow(items, ordered, (pageIndex - 1) * pageSize, pageSize)
  }

  lemma PageOffsetIsNat(pageIndex: int, pageSize: int)
    requires 1 <= pageIndex && 0 <= pageSize
    ensures 0 <= (pageIndex - 1) * pageSize
  {
  }

  lemma SkipThenTakeIsWindow<T>(ordered: seq<T>, offset: nat, pageSize: nat)
    ensures IsWindow(Take(Skip(ordered, offset), pageSize), ordered, offset, pageSize)
  {
    var skipped := Skip(ordered, offset);
    assert |skipped| == if offset >= |ordered| then 0 else |ordered| - offset;
  }

  /** Skip then Take with the 32-bit skip count yields the requested page when the skip count does not overflow. */
  lemma SkipThenTakeIsPage<T>(ordered: seq<T>, pageIndex: Int32, pageSize: Int32)
    requires 1 <= pageIndex && 0 <= pageSize && (pageIndex - 1) * pageSize <= MaxInt32
    ensures IsPage(Take(Skip(ordered, SkipCount(pageIndex, pageSize)), pageSize), ordered, pageIndex, pageSize)
  {
    PageOffsetIsNat(pageIndex, pageSize);
    SkipThenTakeIsWindow(ordered, (pageIndex - 1) * pageSize, pageSize);
  }

  /**
    Take then Skip (the order two of the repository's queries use): page 1
    is the first pageSize elements, and every later page is empty as long
    as the skip count does not overflow.
   */
  lemma TakeThenSkipOnlyFirstPage<T>(ordered: seq<T>, pageIndex: Int32, pageSize: Int32)
    ensures pageIndex == 1 ==> Skip(Take(ordered, pageSize), SkipCount(pageIndex, pageSize)) == Take(ordered, pageSize)
    ensures 2 <= pageIndex && 0 <= pageSize && (pageIndex - 1) * pageSize <= MaxInt32 ==>
              Skip(Take(ordered, pageSize), SkipCount(pageIndex, pageSize)) == []
  {
    if 2 <= pageIndex && 0 <= pageSize && (pageIndex - 1) * pageSize <= MaxInt32 {
      assert (pageIndex - 1) * pageSize >= pageSize;
    }
  }
}

=== FILE: topic_repository.dfy ===
/**
  The topic repository: every query composes the sequence operators of
  module Linq over the store, and Add and Update are transitions of the
  unit of work. The Guid a new topic receives is a parameter.
 */
module TopicRepository {
  import opened Wrappers
  import opened Linq
  import opened Topics
  import opened Paging

  /**
    One unit of work: the rows the database holds, which every query reads;
    the topics added in this unit of work and not yet committed; the ids of
    the entities the context tracks; and the ids of the entities marked
    modified.
   */
  datatype Context = Context(topics: seq<Topic>, pending: seq<Topic>, tracked: set<Id>, modified: set<Id>)

  // ---------------------------------------------------------------- filters

  /** The topics of s carrying the tag, in the order of s. */
  function WithTag(s: seq<Topic>, tag: string): (r: seq<Topic>)
    ensures forall k :: 0 <= k < |r| ==> tag in r[k].tags
    ensures IsSubsequence(r, s)
  {
    Where(s, (t: Topic) => tag in t.tags)
  }

  /** The topic was started by the member and one of its posts is marked as the solution. */
  predicate SolvedBy(t: Topic, memberId: Id)
  {
    t.userId == memberId && true in t.postSolutionFlags
  }

  // ---------------------------------------------------------------- single lookups

  /** Get: the first topic with the id, or None when the store has none. */
  function Get(ctx: Context, id: Id): (r: Option<Topic>)
    ensures r.None? <==> id !in Ids(ctx.topics)
    ensures r.Some? ==> r.value.id == id && r.value in ctx.topics
    ensures r.Some? ==> exists k :: 0 <= k < |ctx.topics| && ctx.topics[k] == r.value
                                    && forall j :: 0 <= j < k ==> ctx.topics[j].id != id
  {
    FirstOrDefault(ctx.topics, (t: Topic) => t.id == id)
  }

  /**
    GetTopicBySlug: None when no topic has exactly this slug, the topic when
    exactly one has, an InvalidOperationException when two or more have.
   */
  function GetTopicBySlug(ctx: Context, slug: string): (r: Result<Option<Topic>, Exception>)
    ensures r == Success(None) <==> forall k :: 0 <= k < |ctx.topics| ==> ctx.topics[k].slug != slug
    ensures r.Success? && r.value.Some? ==>
              exists k :: 0 <= k < |ctx.topics| && ctx.topics[k] == r.value.value && ctx.topics[k].slug == slug
                          && forall j :: 0 <= j < |ctx.topics| && j != k ==> ctx.topics[j].slug != slug
    ensures r.Failure? <==> exists i, j :: 0 <= i < j < |ctx.topics| && ctx.topics[i].slug == slug && ctx.topics[j].slug == slug
    ensures r.Failure? ==> r.error == InvalidOperationException
  {
    SingleOrDefault(ctx.topics, (t: Topic) => t.slug == slug)
  }

  // ---------------------------------------------------------------- whole-store and filtered lists

  /**
    GetAll: every topic of the store, each as often as stored; a topic id
    is listed exactly when Get finds it.
   */
  function GetAll(ctx: Context): (r: seq<Topic>)
    ensures multiset(r) == multiset(ctx.topics)
    ensures forall id :: Get(ctx, id).Some? <==> exists k :: 0 <= k < |r| && r[k].id == id
  {
    ctx.topics
  }

  /** TopicCount: the number of topics GetAll lists. */
  function TopicCount(ctx: Context): (r: nat)
    ensures r == |GetAll(ctx)|
  {
    |ctx.topics|
  }

  /** GetTopicsByUser: exactly the member's topics, in store order. */
  function GetTopicsByUser(ctx: Context, memberId: Id): (r: seq<Topic>)
    ensures IsSubsequence(r, ctx.topics)
    ensures forall t :: multiset(r)[t] == if t.userId == memberId then multiset(ctx.topics)[t] else 0
  {
    Where(ctx.topics, (t: Topic) => t.userId == memberId)
  }

  /** GetAllTopicsByCategory: exactly the category's topics, in store order. */
  function GetAllTopicsByCategory(ctx: Context, categoryId: Id): (r: seq<Topic>)
    ensures IsSubsequence(r, ctx.topics)
    ensures forall t :: multiset(r)[t] == if t.categoryId == categoryId then multiset(ctx.topics)[t] else 0
    ensures forall k :: 0 <= k < |r| ==> r[k].categoryId == categoryId
  {
    Where(ctx.topics, (t: Topic) => t.categoryId == categoryId)
  }

  /** GetTopicBySlugLike: exactly the topics whose slug contains the text, in store order. */
  function GetTopicBySlugLike(ctx: Context, slug: string): (r: seq<Topic>)
    ensures IsSubsequence(r, ctx.topics)
    ensures forall t :: multiset(r)[t] == if ContainsSubstring(t.slug, slug) then multiset(ctx.topics)[t] else 0
  {
    Where(ctx.topics, (t: Topic) => ContainsSubstring(t.slug, slug))
  }

  /**
    GetSolvedTopicsByMember: exactly the member's topics that have a post
    marked as the solution, in store order.
   */
  function GetSolvedTopicsByMember(ctx: Context, memberId: Id): (r: seq<Topic>)
    ensures IsSubsequence(r, ctx.topics)
    ensures forall t :: multiset(r)[t] == if SolvedBy(t, memberId) then multiset(ctx.topics)[t] else 0
  {
    var byMember := Where(ctx.topics, (t: Topic) => t.userId == memberId);
    var solved := Where(byMember, (t: Topic) => true in t.postSolutionFlags);
    SubsequenceTransitive(solved, byMember, ctx.topics);
    solved
  }

  // ---------------------------------------------------------------- top-n lists

  /** GetHighestViewedTopics: the amountToTake most viewed topics, most viewed first. */
  function GetHighestViewedTopics(ctx: Context, amountToTake: Int32): (r: seq<Topic>)
    ensures |r| == if amountToTake <= 0 then 0 else Min(amountToTake, |ctx.topics|)
    ensures MostViewedFirst(r)
    ensures IsTopOf(ByViews, r, ctx.topics)
  {
    var ordered := OrderByDescending(ByViews, ctx.topics);
    TakeOfSortedIsTop(ByViews, ordered, amountToTake);
    SortedIsMostViewedFirst(Take(ordered, amountToTake));
    Take(ordered, amountToTake)
  }

  /** GetRecentRssTopics: the amountToTake newest topics, newest first. */
  function GetRecentRssTopics(ctx: Context, amountToTake: Int32): (r: seq<Topic>)
    ensures |r| == if amountToTake <= 0 then 0 else Min(amountToTake, |ctx.topics|)
    ensures NewestFirst(r)
    ensures IsTopOf(ByCreateDate, r, ctx.topics)
  {
    var ordered := OrderByDescending(ByCreateDate, ctx.topics);
    TakeOfSortedIsTop(ByCreateDate, ordered, amountToTake);
    SortedIsNewestFirst(Take(ordered, amountToTake));
    Take(ordered, amountToTake)
  }

  /** GetRssTopicsByCategory: the amountToTake newest topics of the category, newest first. */
  function GetRssTopicsByCategory(ctx: Context, amountToTake: Int32, categoryId: Id): (r: seq<Topic>)
    ensures |r| == if amountToTake <= 0 then 0 else Min(amountToTake, |GetAllTopicsByCategory(ctx, categoryId)|)
    ensures forall k :: 0 <= k < |r| ==> r[k].categoryId == categoryId
    ensures NewestFirst(r)
    ensures IsTopOf(ByCreateDate, r, GetAllTopicsByCategory(ctx, categoryId))
  {
    var inCategory := GetAllTopicsByCategory(ctx, categoryId);
    var ordered := OrderByDescending(ByCreateDate, inCategory);
    TakeOfSortedIsTop(ByCreateDate, ordered, amountToTake);
    var r := Take(ordered, amountToTake);
    SortedIsNewestFirst(r);
    DrawnElementsInCategory(r, inCategory, categoryId);
    r
  }

  // ---------------------------------------------------------------- paging pipelines

  /** Skip then Take, the order GetRecentTopics and GetPagedTopicsByCategory use, over a sorted sequence. */
  function SkipTake(o: Order, ordered: seq<Topic>, pageIndex: Int32, pageSize: Int32): (r: seq<Topic>)
    requires Sorted(o, ordered)
    ensures Sorted(o, r)
    ensures multiset(r) <= multiset(ordered)
    ensures |r| <= if pageSize < 0 then 0 else pageSize
  {
    var skipped := Skip(ordered, SkipCount(pageIndex, pageSize));
    SortedSkip(o, ordered, SkipCount(pageIndex, pageSize));
    SortedTake(o, skipped, pageSize);
    Take(skipped, pageSize)
  }

  /** Take then Skip, the order GetPagedTopicsAll and GetPagedTopicsByTag use, over a sorted sequence. */
  function TakeSkip(o: Order, ordered: seq<Topic>, pageIndex: Int32, pageSize: Int32): (r: seq<Topic>)
    requires Sorted(o, ordered)
    ensures Sorted(o, r)
    ensures multiset(r) <= multiset(ordered)
    ensures |r| <= if pageSize < 0 then 0 else pageSize
    ensures pageIndex == 1 ==> IsTopOf(o, r, ordered)
    ensures pageIndex == 1 ==> |r| == if pageSize <= 0 then 0 else Min(pageSize, |ordered|)
    ensures 2 <= pageIndex && 0 <= pageSize && (pageIndex - 1) * pageSize <= MaxInt32 ==> r == []
  {
    var taken := Take(ordered, pageSize);
    SortedTake(o, ordered, pageSize);
    SortedSkip(o, taken, SkipCount(pageIndex, pageSize));
    TakeOfSortedIsTop(o, ordered, pageSize);
    TakeThenSkipOnlyFirstPage(ordered, pageIndex, pageSize);
    Skip(taken, SkipCount(pageIndex, pageSize))
  }

  // ---------------------------------------------------------------- paged lists

  /**
    GetRecentTopics: page pageIndex of the topics ordered newest first. The
    total is the page's item count clamped to amountToTake, not the number
    of topics in the store.
   */
  function GetRecentTopics(ctx: Context, pageIndex: Int32, pageSize: Int32, amountToTake: Int32): (r: PagedList<Topic>)
    ensures r.pageIndex == pageIndex && r.pageSize == pageSize
    ensures |r.items| <= if pageSize < 0 then 0 else pageSize
    ensures TotalIsClamped(r, amountToTake)
    ensures multiset(r.items) <= multiset(ctx.topics)
    ensures NewestFirst(r.items)
  {
    var results := SkipTake(ByCreateDate, OrderByDescending(ByCreateDate, ctx.topics), pageIndex, pageSize);
    SortedIsNewestFirst(results);
    ToPagedList(results, pageIndex, pageSize, amountToTake)
  }

  /**
    GetPagedTopicsByCategory: page pageIndex of the category's topics,
    sticky topics first and newest first within each group; the total is
    the page's item count clamped to amountToTake.
   */
  function GetPagedTopicsByCategory(ctx: Context, pageIndex: Int32, pageSize: Int32, amountToTake: Int32, categoryId: Id): (r: PagedList<Topic>)
    ensures r.pageIndex == pageIndex && r.pageSize == pageSize
    ensures |r.items| <= if pageSize < 0 then 0 else pageSize
    ensures TotalIsClamped(r, amountToTake)
    ensures multiset(r.items) <= multiset(ctx.topics)
    ensures forall k :: 0 <= k < |r.items| ==> r.items[k].categoryId == categoryId
    ensures StickyFirstThenNewest(r.items)
  {
    var inCategory := GetAllTopicsByCategory(ctx, categoryId);
    var results := SkipTake(ByStickyThenCreateDate, OrderByDescending(ByStickyThenCreateDate, inCategory), pageIndex, pageSize);
    SortedIsStickyFirst(results);
    DrawnElementsInCategory(results, inCategory, categoryId);
    ToPagedList(results, pageIndex, pageSize, amountToTake)
  }

  /**
    GetPagedTopicsAll as written: it takes pageSize topics of the
    sticky-then-newest ordering BEFORE skipping (pageIndex - 1) * pageSize,
    so page 1 is the first pageSize topics and every later page is empty.
   */
  function GetPagedTopicsAll(ctx: Context, pageIndex: Int32, pageSize: Int32, amountToTake: Int32): (r: PagedList<Topic>)
    ensures r.pageIndex == pageIndex && r.pageSize == pageSize
    ensures |r.items| <= if pageSize < 0 then 0 else pageSize
    ensures TotalIsClamped(r, amountToTake)
    ensures StickyFirstThenNewest(r.items)
    ensures pageIndex == 1 ==> IsTopOf(ByStickyThenCreateDate, r.items, ctx.topics)
    ensures pageIndex == 1 ==> |r.items| == if pageSize <= 0 then 0 else Min(pageSize, |ctx.topics|)
    ensures 2 <= pageIndex && 0 <= pageSize && (pageIndex - 1) * pageSize <= MaxInt32 ==>
              r.items == [] && (0 <= amountToTake ==> r.total == 0)
  {
    var results := TakeSkip(ByStickyThenCreateDate, OrderByDescending(ByStickyThenCreateDate, ctx.topics), pageIndex, pageSize);
    SortedIsStickyFirst(results);
    ToPagedList(results, pageIndex, pageSize, amountToTake)
  }

  /**
    GetPagedTopicsByTag as written: orders the store sticky-then-newest,
    keeps the topics carrying the tag, then takes pageSize BEFORE skipping,
    so only page 1 can hold topics.
   */
  function GetPagedTopicsByTag(ctx: Context, pageIndex: Int32, pageSize: Int32, amountToTake: Int32, tag: string): (r: PagedList<Topic>)
    ensures r.pageIndex == pageIndex && r.pageSize == pageSize
    ensures |r.items| <= if pageSize < 0 then 0 else pageSize
    ensures TotalIsClamped(r, amountToTake)
    ensures forall k :: 0 <= k < |r.items| ==> tag in r.items[k].tags
    ensures StickyFirstThenNewest(r.items)
    ensures pageIndex == 1 ==> IsTopOf(ByStickyThenCreateDate, r.items, WithTag(ctx.topics, tag))
    ensures pageIndex == 1 ==> |r.items| == if pageSize <= 0 then 0 else Min(pageSize, |WithTag(ctx.topics, tag)|)
    ensures 2 <= pageIndex && 0 <= pageSize && (pageIndex - 1) * pageSize <= MaxInt32 ==>
              r.items == [] && (0 <= amountToTake ==> r.total == 0)
  {
    var results := TakeSkip(ByStickyThenCreateDate, TaggedStickyThenNewest(ctx, tag), pageIndex, pageSize);
    TagPageFacts(ctx, pageIndex, pageSize, tag);
    ToPagedList(results, pageIndex, pageSize, amountToTake)
  }

  lemma TagPageFacts(ctx: Context, pageIndex: Int32, pageSize: Int32, tag: string)
    ensures var results := TakeSkip(ByStickyThenCreateDate, TaggedStickyThenNewest(ctx, tag), pageIndex, pageSize);
      && (forall k :: 0 <= k < |results| ==> tag in results[k].tags)
      && StickyFirstThenNewest(results)
      && (pageIndex == 1 ==> IsTopOf(ByStickyThenCreateDate, results, WithTag(ctx.topics, tag)))
  {
    var tagged := TaggedStickyThenNewest(ctx, tag);
    var results := TakeSkip(ByStickyThenCreateDate, tagged, pageIndex, pageSize);
    SortedIsStickyFirst(results);
    IsTopOfPermutation(ByStickyThenCreateDate, results, tagged, WithTag(ctx.topics, tag));
    DrawnElementsCarryTag(results, tagged, tag);
  }

  lemma DrawnElementsInCategory(r: seq<Topic>, s: seq<Topic>, categoryId: Id)
    requires multiset(r) <= multiset(s)
    requires forall k :: 0 <= k < |s| ==> s[k].categoryId == categoryId
    ensures forall k :: 0 <= k < |r| ==> r[k].categoryId == categoryId
  {
    forall k | 0 <= k < |r|
      ensures r[k].categoryId == categoryId
    {
      assert r[k] in multiset(r);
      assert r[k] in s;
    }
  }

  lemma DrawnElementsCarryTag(r: seq<Topic>, s: seq<Topic>, tag: string)
    requires multiset(r) <= multiset(s)
    requires forall k :: 0 <= k < |s| ==> tag in s[k].tags
    ensures forall k :: 0 <= k < |r| ==> tag in r[k].tags
  {
    forall k | 0 <= k < |r|
      ensures tag in r[k].tags
    {
      assert r[k] in multiset(r);
      assert r[k] in s;
    }
  }

  /** The store ordered sticky-then-newest and then filtered by tag: the tagged topics, in that order. */
  function TaggedStickyThenNewest(ctx: Context, tag: string): (r: seq<Topic>)
    ensures Sorted(ByStickyThenCreateDate, r)
    ensures multiset(r) == multiset(WithTag(ctx.topics, tag))
    ensures |r| == |WithTag(ctx.topics, tag)|
    ensures forall k :: 0 <= k < |r| ==> tag in r[k].tags
  {
    var ordered := OrderByDescending(ByStickyThenCreateDate, ctx.topics);
    var tagged := WithTag(ordered, tag);
    SortedSubsequence(ByStickyThenCreateDate, tagged, ordered);
    WithTagKeepsMultiset(ordered, ctx.topics, tag);
    tagged
  }

  /** Filtering two permutations of each other by tag gives permutations of each other. */
  lemma WithTagKeepsMultiset(s: seq<Topic>, s': seq<Topic>, tag: string)
    requires multiset(s) == multiset(s')
    ensures multiset(WithTag(s, tag)) == multiset(WithTag(s', tag))
    ensures |WithTag(s, tag)| == |WithTag(s', tag)|
  {
    var a, b := WithTag(s, tag), WithTag(s', tag);
    assert forall t :: multiset(a)[t] == multiset(b)[t];
    assert multiset(a) == multiset(b);
    assert |multiset(a)| == |multiset(b)|;
  }

  // ---------------------------------------------------------------- state changes

  /**
    Add: the topic receives freshId, a Guid no topic in the database or
    added in this unit of work has, and is queued as a new, tracked entity;
    the returned topic is the queued one. The database rows do not change
    until commit.
   */
  function Add(ctx: Context, topic: Topic, freshId: Id): (r: (Context, Topic))
    requires freshId !in Ids(ctx.topics) && freshId !in Ids(ctx.pending)
    ensures r.1.id == freshId && r.1.(id := topic.id) == topic
    ensures r.0.topics == ctx.topics
    ensures |r.0.pending| == |ctx.pending| + 1
    ensures forall k :: 0 <= k < |ctx.pending| ==> r.0.pending[k] == ctx.pending[k]
    ensures r.0.pending[|ctx.pending|] == r.1
    ensures Ids(r.0.pending) == Ids(ctx.pending) + {freshId}
    ensures r.0.tracked == ctx.tracked + {freshId} && r.0.modified == ctx.modified
    ensures UniqueIds(ctx.topics + ctx.pending) ==> UniqueIds(r.0.topics + r.0.pending)
  {
    var added := topic.(id := freshId);
    var pending := ctx.pending + [added];
    assert forall t :: t in pending <==> t in ctx.pending || t == added;
    assert forall t :: t in ctx.topics + ctx.pending ==> t.id != freshId;
    assert ctx.topics + pending == (ctx.topics + ctx.pending) + [added];
    (ctx.(pending := pending, tracked := ctx.tracked + {freshId}), added)
  }

  /**
    The unit of work's commit, as far as the repository's queries can tell:
    the queued topics become database rows, after the existing ones, and
    nothing is queued any more. Commit belongs to the unit of work, not to
    the repository; it is here so that Add can be related to the queries.
   */
  function Commit(ctx: Context): (r: Context)
    ensures r.pending == []
    ensures |r.topics| == |ctx.topics| + |ctx.pending|
    ensures forall k :: 0 <= k < |ctx.topics| ==> r.topics[k] == ctx.topics[k]
    ensures forall k :: 0 <= k < |ctx.pending| ==> r.topics[|ctx.topics| + k] == ctx.pending[k]
    ensures Ids(r.topics) == Ids(ctx.topics) + Ids(ctx.pending)
    ensures r.tracked == ctx.tracked
  {
    var topics := ctx.topics + ctx.pending;
    assert forall t :: t in topics <==> t in ctx.topics || t in ctx.pending;
    ctx.(topics := topics, pending := [])
  }

  /**
    Update as written: Select(x => x.Id == item.Id).Any() asks whether the
    projection of the tracked entities is non-empty, so Update throws
    whenever anything is tracked, whatever the item's id. Otherwise the
    item is attached and marked modified; the store is unchanged until
    commit.
   */
  function Update(ctx: Context, item: Topic): (r: Result<Context, Exception>)
    ensures r.Failure? <==> ctx.tracked != {}
    ensures r.Failure? ==> r.error == ApplicationException
    ensures r.Success? ==> r.value.topics == ctx.topics && r.value.pending == ctx.pending && r.value.tracked == {item.id}
                           && r.value.modified == ctx.modified + {item.id}
  {
    var projected := set x | x in ctx.tracked :: x == item.id;
    ProjectionEmptyOnlyWhenUntracked(ctx.tracked, item.id);
    if projected != {} then
      Failure(ApplicationException)
    else
      Success(ctx.(tracked := ctx.tracked + {item.id}, modified := ctx.modified + {item.id}))
  }

  /** Projecting the tracked ids to booleans leaves something exactly when something is tracked. */
  lemma ProjectionEmptyOnlyWhenUntracked(tracked: set<Id>, id: Id)
    ensures (set x | x in tracked :: x == id) != {} <==> tracked != {}
  {
    var projected := set y | y in tracked :: y == id;
    if tracked != {} {
      var x :| x in tracked;
      assert (x == id) in projected;
    } else {
      assert forall b :: b !in projected;
    }
  }

  // ---------------------------------------------------------------- properties

  /** A topic only added is not yet a database row: Get does not find it and TopicCount does not count it. */
  lemma AddIsInvisibleUntilCommit(ctx: Context, topic: Topic, freshId: Id)
    requires freshId !in Ids(ctx.topics) && freshId !in Ids(ctx.pending)
    ensures Get(Add(ctx, topic, freshId).0, freshId) == None
    ensures TopicCount(Add(ctx, topic, freshId).0) == TopicCount(ctx)
  {
  }

  /** Once committed, a topic just added is what Get answers for its new id. */
  lemma AddThenGet(ctx: Context, topic: Topic, freshId: Id)
    requires freshId !in Ids(ctx.topics) && freshId !in Ids(ctx.pending)
    ensures Get(Commit(Add(ctx, topic, freshId).0), freshId) == Some(Add(ctx, topic, freshId).1)
  {
    var (ctx', added) := Add(ctx, topic, freshId);
    var rows := Commit(ctx').topics;
    assert rows == (ctx.topics + ctx.pending) + [added];
    assert forall t :: t in ctx.topics + ctx.pending ==> t.id != freshId;
    assert added in rows;
  }

  /** Once committed, Add leaves every other id's lookup as committing without it would. */
  lemma AddKeepsOtherLookups(ctx: Context, topic: Topic, freshId: Id, id: Id)
    requires freshId !in Ids(ctx.topics) && freshId !in Ids(ctx.pending) && id != freshId
    ensures Get(Commit(Add(ctx, topic, freshId).0), id) == Get(Commit(ctx), id)
  {
    var rows := Commit(Add(ctx, topic, freshId).0).topics;
    assert rows == Commit(ctx).topics + [topic.(id := freshId)];
    FirstOrDefaultAppendMiss(Commit(ctx).topics, topic.(id := freshId), (t: Topic) => t.id == id);
  }

  lemma {:induction false} FirstOrDefaultAppendMiss<T>(s: seq<T>, x: T, p: T -> bool)
    requires !p(x)
    ensures FirstOrDefault(s + [x], p) == FirstOrDefault(s, p)
    decreases |s|
  {
    if |s| > 0 {
      assert (s + [x])[1..] == s[1..] + [x];
      FirstOrDefaultAppendMiss(s[1..], x, p);
    }
  }

  /** Once committed, Add grows TopicCount by exactly one over committing without it. */
  lemma AddGrowsCount(ctx: Context, topic: Topic, freshId: Id)
    requires freshId !in Ids(ctx.topics) && freshId !in Ids(ctx.pending)
    ensures TopicCount(Commit(Add(ctx, topic, freshId).0)) == TopicCount(Commit(ctx)) + 1
  {
  }

  /** After Add the unit of work tracks the new topic, so any later Update in it throws. */
  lemma UpdateAfterAddThrows(ctx: Context, topic: Topic, freshId: Id, item: Topic)
    requires freshId !in Ids(ctx.topics) && freshId !in Ids(ctx.pending)
    ensures Update(Add(ctx, topic, freshId).0, item) == Failure(ApplicationException)
  {
    assert freshId in Add(ctx, topic, freshId).0.tracked;
  }

  /** When slugs are unique in the store, GetTopicBySlug never throws. */
  lemma UniqueSlugsNeverThrow(ctx: Context, slug: string)
    requires forall i, j :: 0 <= i < j < |ctx.topics| ==> ctx.topics[i].slug != ctx.topics[j].slug
    ensures GetTopicBySlug(ctx, slug).Success?
  {
  }

  /** With no overflow in the skip count, GetRecentTopics answers exactly the requested page of the newest-first ordering. */
  lemma RecentTopicsIsPage(ctx: Context, pageIndex: Int32, pageSize: Int32, amountToTake: Int32)
    requires 1 <= pageIndex && 0 <= pageSize && (pageIndex - 1) * pageSize <= MaxInt32
    ensures IsPage(GetRecentTopics(ctx, pageIndex, pageSize, amountToTake).items,
                   OrderByDescending(ByCreateDate, ctx.topics), pageIndex, pageSize)
  {
    SkipThenTakeIsPage(OrderByDescending(ByCreateDate, ctx.topics), pageIndex, pageSize);
  }

  /** With no overflow in the skip count, GetPagedTopicsByCategory answers exactly the requested page of the category's ordering. */
  lemma PagedTopicsByCategoryIsPage(ctx: Context, pageIndex: Int32, pageSize: Int32, amountToTake: Int32, categoryId: Id)
    requires 1 <= pageIndex && 0 <= pageSize && (pageIndex - 1) * pageSize <= MaxInt32
    ensures IsPage(GetPagedTopicsByCategory(ctx, pageIndex, pageSize, amountToTake, categoryId).items,
                   OrderByDescending(ByStickyThenCreateDate, GetAllTopicsByCategory(ctx, categoryId)), pageIndex, pageSize)
  {
    SkipThenTakeIsPage(OrderByDescending(ByStickyThenCreateDate, GetAllTopicsByCategory(ctx, categoryId)), pageIndex, pageSize);
  }

  /** The 32-bit skip count wraps: page 65537 of size 65536 repeats page 1. */
  lemma RecentTopicsPageWrapsToFirst(ctx: Context, amountToTake: Int32)
    ensures GetRecentTopics(ctx, 65537, 65536, amountToTake).items == GetRecentTopics(ctx, 1, 65536, amountToTake).items
  {
    SkipCountWraps();
  }
}

=== FILE: topic_repository_fixes.dfy ===
/**
  Corrected definitions of the repository operations whose code departs
  from what their comments and names promise, each next to a lemma that
  exhibits the departure of the code as written.
 */
module TopicRepositoryFixes {
  import opened Wrappers
  import opened Linq
  import opened Topics
  import opened Paging
  import opened TopicRepository

  // ---------------------------------------------------------------- Take before Skip

  /** GetPagedTopicsAll with Skip before Take: any page of the sticky-then-newest ordering. */
  function GetPagedTopicsAllFixed(ctx: Context, pageIndex: Int32, pageSize: Int32, amountToTake: Int32): (r: PagedList<Topic>)
    ensures TotalIsClamped(r, amountToTake)
    ensures StickyFirstThenNewest(r.items)
    ensures 1 <= pageIndex && 0 <= pageSize && (pageIndex - 1) * pageSize <= MaxInt32 ==>
              IsPage(r.items, OrderByDescending(ByStickyThenCreateDate, ctx.topics), pageIndex, pageSize)
  {
    var ordered := OrderByDescending(ByStickyThenCreateDate, ctx.topics);
    var results := SkipTake(ByStickyThenCreateDate, ordered, pageIndex, pageSize);
    SortedIsStickyFirst(results);
    PageWhenNoOverflow(ordered, pageIndex, pageSize);
    ToPagedList(results, pageIndex, pageSize, amountToTake)
  }

  /** GetPagedTopicsByTag with Skip before Take: any page of the tagged topics in sticky-then-newest order. */
  function GetPagedTopicsByTagFixed(ctx: Context, pageIndex: Int32, pageSize: Int32, amountToTake: Int32, tag: string): (r: PagedList<Topic>)
    ensures TotalIsClamped(r, amountToTake)
    ensures StickyFirstThenNewest(r.items)
    ensures 1 <= pageIndex && 0 <= pageSize && (pageIndex - 1) * pageSize <= MaxInt32 ==>
              IsPage(r.items, TaggedStickyThenNewest(ctx, tag), pageIndex, pageSize)
  {
    var tagged := TaggedStickyThenNewest(ctx, tag);
    var results := SkipTake(ByStickyThenCreateDate, tagged, pageIndex, pageSize);
    SortedIsStickyFirst(results);
    PageWhenNoOverflow(tagged, pageIndex, pageSize);
    ToPagedList(results, pageIndex, pageSize, amountToTake)
  }

  lemma PageWhenNoOverflow(ordered: seq<Topic>, pageIndex: Int32, pageSize: Int32)
    ensures 1 <= pageIndex && 0 <= pageSize && (pageIndex - 1) * pageSize <= MaxInt32 ==>
              IsPage(Take(Skip(ordered, SkipCount(pageIndex, pageSize)), pageSize), ordered, pageIndex, pageSize)
  {
    if 1 <= pageIndex && 0 <= pageSize && (pageIndex - 1) * pageSize <= MaxInt32 {
      SkipThenTakeIsPage(ordered, pageIndex, pageSize);
    }
  }

  /** With two topics and one topic per page, page 2 as written is empty; the corrected query shows the second topic. */
  lemma PagedTopicsAllSecondPageEmpty(ctx: Context)
    requires |ctx.topics| >= 2
    ensures GetPagedTopicsAll(ctx, 2, 1, 100).items == []
    ensures GetPagedTopicsAllFixed(ctx, 2, 1, 100).items == [OrderByDescending(ByStickyThenCreateDate, ctx.topics)[1]]
  {
    var fixed := GetPagedTopicsAllFixed(ctx, 2, 1, 100).items;
    assert IsWindow(fixed, OrderByDescending(ByStickyThenCreateDate, ctx.topics), 1, 1);
  }

  /** With two topics carrying the tag and one per page, page 2 as written is empty; the corrected query shows the second. */
  lemma PagedTopicsByTagSecondPageEmpty(ctx: Context, tag: string)
    requires |WithTag(ctx.topics, tag)| >= 2
    ensures GetPagedTopicsByTag(ctx, 2, 1, 100, tag).items == []
    ensures GetPagedTopicsByTagFixed(ctx, 2, 1, 100, tag).items == [TaggedStickyThenNewest(ctx, tag)[1]]
  {
    var tagged := TaggedStickyThenNewest(ctx, tag);
    assert |tagged| >= 2;
    var fixed := GetPagedTopicsByTagFixed(ctx, 2, 1, 100, tag).items;
    assert IsPage(fixed, tagged, 2, 1);
    assert IsWindow(fixed, tagged, 1, 1);
    assert |fixed| == 1 && fixed[0] == tagged[1];
  }

  // ---------------------------------------------------------------- total of a page

  /**
    GetRecentTopics reporting the number of topics (up to amountToTake)
    rather than the number on the page, which is what "display the top
    100, but there might not be 100 topics" calls for.
   */
  function GetRecentTopicsFixed(ctx: Context, pageIndex: Int32, pageSize: Int32, amountToTake: Int32): (r: PagedList<Topic>)
    ensures r.items == GetRecentTopics(ctx, pageIndex, pageSize, amountToTake).items
    ensures r.total == Min(|ctx.topics|, amountToTake)
  {
    var paged := GetRecentTopics(ctx, pageIndex, pageSize, amountToTake);
    PagedList(paged.items, pageIndex, pageSize, ClampTotal(|ctx.topics|, amountToTake))
  }

  /** With two topics and a page of one, the total as written reports 1 topic; the corrected total reports 2. */
  lemma RecentTopicsTotalUnderstates(ctx: Context)
    requires |ctx.topics| == 2
    ensures GetRecentTopics(ctx, 1, 1, 100).total == 1
    ensures GetRecentTopicsFixed(ctx, 1, 1, 100).total == 2
  {
    RecentTopicsIsPage(ctx, 1, 1, 100);
  }

  // ---------------------------------------------------------------- duplicate check in Update

  /**
    Update checking Where(x => x.Id == item.Id).Any(): it throws exactly
    when an entity with the item's id is already tracked.
   */
  function UpdateFixed(ctx: Context, item: Topic): (r: Result<Context, Exception>)
    ensures r.Failure? <==> item.id in ctx.tracked
    ensures r.Failure? ==> r.error == ApplicationException
    ensures r.Success? ==> r.value.topics == ctx.topics && r.value.pending == ctx.pending && r.value.tracked == ctx.tracked + {item.id}
                           && r.value.modified == ctx.modified + {item.id}
  {
    var sameId := set x | x in ctx.tracked && x == item.id;
    assert item.id in ctx.tracked <==> item.id in sameId;
    if sameId != {} then
      Failure(ApplicationException)
    else
      Success(ctx.(tracked := ctx.tracked + {item.id}, modified := ctx.modified + {item.id}))
  }

  /** Tracking topic 1 makes Update of topic 2 throw as written; the corrected check lets it through. */
  lemma UpdateRejectsUnrelatedItem(ctx: Context, item: Topic)
    requires ctx.tracked == {1} && item.id == 2
    ensures Update(ctx, item).Failure?
    ensures UpdateFixed(ctx, item).Success?
  {
  }
}

=== FILE: topics.dfy ===
/**
  The Topic entity and the three orderings the repository sorts by:
  views descending, creation date descending, and sticky-first then
  creation date descending.
 */
module Topics {
  import opened Linq

  /** An opaque identity (a Guid in the forum). */
  type Id = nat

  /**
    A forum topic as the repository's queries see it. The category and the
    author are represented by their ids; the posts only by their
    "is solution" markers, in post order; the tag associations by tag text.
   */
  datatype Topic = Topic(
    id: Id,
    slug: string,
    createDate: int,
    views: nat,
    isSticky: bool,
    categoryId: Id,
    userId: Id,
    tags: seq<string>,
    postSolutionFlags: seq<bool>)

  /** The ids of the topics in a store. */
  function Ids(s: seq<Topic>): set<Id>
  {
    set t | t in s :: t.id
  }

  /** No two topics in the store share an id. */
  predicate UniqueIds(s: seq<Topic>)
  {
    forall i, j :: 0 <= i < j < |s| ==> s[i].id != s[j].id
  }

  /** The key a query orders by, always descending. */
  datatype Order = ByViews | ByCreateDate | ByStickyThenCreateDate

  /** a may be listed before b: a's key is at least b's key. */
  predicate Precedes(o: Order, a: Topic, b: Topic)
  {
    match o
    case ByViews => a.views >= b.views
    case ByCreateDate => a.createDate >= b.createDate
    case ByStickyThenCreateDate =>
      (a.isSticky && !b.isSticky) || (a.isSticky == b.isSticky && a.createDate >= b.createDate)
  }

  predicate Sorted(o: Order, s: seq<Topic>)
  {
    forall i, j {:trigger Precedes(o, s[i], s[j])} :: 0 <= i < j < |s| ==> Precedes(o, s[i], s[j])
  }

  /** Every sticky topic comes before every non-sticky one, and within each group newer topics come first. */
  predicate StickyFirstThenNewest(s: seq<Topic>)
  {
    && (forall i, j :: 0 <= i < j < |s| && s[j].isSticky ==> s[i].isSticky)
    && (forall i, j :: 0 <= i < j < |s| && s[i].isSticky == s[j].isSticky ==> s[i].createDate >= s[j].createDate)
  }

  predicate NewestFirst(s: seq<Topic>)
  {
    forall i, j :: 0 <= i < j < |s| ==> s[i].createDate >= s[j].createDate
  }

  predicate MostViewedFirst(s: seq<Topic>)
  {
    forall i, j :: 0 <= i < j < |s| ==> s[i].views >= s[j].views
  }

  /** The sticky-then-date ordering is exactly the sticky partition with newest-first groups. */
  lemma StickyOrderIsPartition(s: seq<Topic>)
    ensures Sorted(ByStickyThenCreateDate, s) <==> StickyFirstThenNewest(s)
  {
    if StickyFirstThenNewest(s) {
      forall i, j | 0 <= i < j < |s|
        ensures Precedes(ByStickyThenCreateDate, s[i], s[j])
      {
        if s[j].isSticky {
          assert s[i].isSticky;
        }
      }
    }
    if Sorted(ByStickyThenCreateDate, s) {
      forall i, j | 0 <= i < j < |s|
        ensures (s[j].isSticky ==> s[i].isSticky)
                && (s[i].isSticky == s[j].isSticky ==> s[i].createDate >= s[j].createDate)
      {
        assert Precedes(ByStickyThenCreateDate, s[i], s[j]);
      }
    }
  }

  lemma SortedIsNewestFirst(s: seq<Topic>)
    requires Sorted(ByCreateDate, s)
    ensures NewestFirst(s)
  {
    forall i, j | 0 <= i < j < |s|
      ensures s[i].createDate >= s[j].createDate
    {
      assert Precedes(ByCreateDate, s[i], s[j]);
    }
  }

  lemma SortedIsMostViewedFirst(s: seq<Topic>)
    requires Sorted(ByViews, s)
    ensures MostViewedFirst(s)
  {
    forall i, j | 0 <= i < j < |s|
      ensures s[i].views >= s[j].views
    {
      assert Precedes(ByViews, s[i], s[j]);
    }
  }

  lemma SortedIsStickyFirst(s: seq<Topic>)
    requires Sorted(ByStickyThenCreateDate, s)
    ensures StickyFirstThenNewest(s)
  {
    StickyOrderIsPartition(s);
  }

  lemma PrecedesTotal(o: Order, a: Topic, b: Topic)
    ensures Precedes(o, a, b) || Precedes(o, b, a)
  {
  }

  lemma PrecedesTransitive(o: Order, a: Topic, b: Topic, c: Topic)
    requires Precedes(o, a, b) && Precedes(o, b, c)
    ensures Precedes(o, a, c)
  {
  }

  /** A topic that may precede every element of a sorted sequence can head it. */
  lemma SortedCons(o: Order, x: Topic, s: seq<Topic>)
    requires Sorted(o, s)
    requires forall k :: 0 <= k < |s| ==> Precedes(o, x, s[k])
    ensures Sorted(o, [x] + s)
  {
    var r := [x] + s;
    forall i, j | 0 <= i < j < |r|
      ensures Precedes(o, r[i], r[j])
    {
      if i == 0 {
        assert r[j] == s[j - 1];
      } else {
        assert r[i] == s[i - 1] && r[j] == s[j - 1];
        assert Precedes(o, s[i - 1], s[j - 1]);
      }
    }
  }

  /** Placing x in front of the first element it may precede keeps a sorted sequence sorted. */
  function Insert(o: Order, x: Topic, s: seq<Topic>): (r: seq<Topic>)
    requires Sorted(o, s)
    ensures Sorted(o, r)
    ensures multiset(r) == multiset(s) + multiset{x}
    ensures |r| == |s| + 1
  {
    if |s| == 0 || Precedes(o, x, s[0]) then
      InsertAtHead(o, x, s);
      [x] + s
    else
      assert Sorted(o, s[1..]);
      var rest := Insert(o, x, s[1..]);
      assert s == [s[0]] + s[1..];
      InsertBehindHead(o, x, s, rest);
      [s[0]] + rest
  }

  lemma InsertAtHead(o: Order, x: Topic, s: seq<Topic>)
    requires Sorted(o, s)
    requires |s| == 0 || Precedes(o, x, s[0])
    ensures Sorted(o, [x] + s)
  {
    forall k | 0 <= k < |s|
      ensures Precedes(o, x, s[k])
    {
      if k > 0 {
        PrecedesTransitive(o, x, s[0], s[k]);
      }
    }
    SortedCons(o, x, s);
  }

  lemma InsertBehindHead(o: Order, x: Topic, s: seq<Topic>, rest: seq<Topic>)
    requires Sorted(o, s) && |s| > 0 && !Precedes(o, x, s[0])
    requires Sorted(o, rest) && multiset(rest) == multiset(s[1..]) + multiset{x}
    ensures Sorted(o, [s[0]] + rest)
  {
    PrecedesTotal(o, x, s[0]);
    forall k | 0 <= k < |rest|
      ensures Precedes(o, s[0], rest[k])
    {
      assert rest[k] in multiset(rest);
      if rest[k] != x {
        assert rest[k] in s[1..];
        var j :| 0 <= j < |s[1..]| && s[1..][j] == rest[k];
        assert s[j + 1] == rest[k];
      }
    }
    SortedCons(o, s[0], rest);
  }

  /**
    OrderByDescending (with ThenByDescending for the sticky ordering): a
    permutation of s sorted by the key. The store guarantees no particular
    order among equal keys and neither do these contracts.
   */
  function OrderByDescending(o: Order, s: seq<Topic>): (r: seq<Topic>)
    ensures Sorted(o, r)
    ensures multiset(r) == multiset(s)
    ensures |r| == |s|
  {
    if |s| == 0 then []
    else
      assert s == [s[0]] + s[1..];
      Insert(o, s[0], OrderByDescending(o, s[1..]))
  }

  /** Keeping a subsequence of a sorted sequence keeps it sorted (so Where after an ordering is sorted). */
  lemma {:induction false} SortedSubsequence(o: Order, r: seq<Topic>, s: seq<Topic>)
    requires Sorted(o, s) && IsSubsequence(r, s)
    ensures Sorted(o, r)
    decreases |s|
  {
    if |r| > 0 {
      assert Sorted(o, s[1..]);
      if r[0] == s[0] && IsSubsequence(r[1..], s[1..]) {
        SortedSubsequence(o, r[1..], s[1..]);
        SubsequenceMembers(r[1..], s[1..]);
        forall i, j | 0 <= i < j < |r|
          ensures Precedes(o, r[i], r[j])
        {
          if i == 0 {
            assert r[j] in r[1..];
          } else {
            assert r[i] == r[1..][i - 1] && r[j] == r[1..][j - 1];
          }
        }
      } else {
        SortedSubsequence(o, r, s[1..]);
      }
    }
  }

  lemma SortedTake(o: Order, s: seq<Topic>, n: int)
    requires Sorted(o, s)
    ensures Sorted(o, Take(s, n))
  {
    var r := Take(s, n);
    forall i, j | 0 <= i < j < |r|
      ensures Precedes(o, r[i], r[j])
    {
      assert r[i] == s[i] && r[j] == s[j];
      assert Precedes(o, s[i], s[j]);
    }
  }

  lemma SortedSkip(o: Order, s: seq<Topic>, n: int)
    requires Sorted(o, s)
    ensures Sorted(o, Skip(s, n))
  {
    if 0 < n < |s| {
      var r := s[n..];
      forall i, j | 0 <= i < j < |r|
        ensures Precedes(o, r[i], r[j])
      {
        assert r[i] == s[n + i] && r[j] == s[n + j];
        assert Precedes(o, s[n + i], s[n + j]);
      }
    }
  }

  /**
    r is a leading selection of s under o: r is drawn from s, is sorted,
    and each of its topics may precede every topic of s it left out.
   */
  predicate IsTopOf(o: Order, r: seq<Topic>, s: seq<Topic>)
  {
    && multiset(r) <= multiset(s)
    && Sorted(o, r)
    && forall i, x :: 0 <= i < |r| && x in multiset(s) - multiset(r) ==> Precedes(o, r[i], x)
  }

  /** Being a leading selection depends on the source's elements only, not on their order. */
  lemma IsTopOfPermutation(o: Order, r: seq<Topic>, s: seq<Topic>, s': seq<Topic>)
    requires multiset(s) == multiset(s')
    ensures IsTopOf(o, r, s) <==> IsTopOf(o, r, s')
  {
  }

  /** Taking a prefix of a sorted sequence selects its top elements. */
  lemma TakeOfSortedIsTop(o: Order, s: seq<Topic>, n: int)
    requires Sorted(o, s)
    ensures IsTopOf(o, Take(s, n), s)
  {
    var r := Take(s, n);
    SortedTake(o, s, n);
    var k := |r|;
    assert r == s[..k];
    assert s == s[..k] + s[k..];
    assert multiset(s) - multiset(r) == multiset(s[k..]);
    forall i, x | 0 <= i < |r| && x in multiset(s) - multiset(r)
      ensures Precedes(o, r[i], x)
    {
      assert x in s[k..];
      var j :| 0 <= j < |s[k..]| && s[k..][j] == x;
      assert s[k + j] == x;
    }
  }
}

=== FILE: wrappers.dfy ===
/** Failure-carrying result types used by the repository model. */
module Wrappers {

  /** A value that may be absent: the model of a C# reference that may be null. */
  datatype Option<+T> = None | Some(value: T)

  /** Either a value or the exception the C# code throws instead of returning. */
  datatype Result<+T, +E> = Success(value: T) | Failure(error: E)

  /** The .NET exception kinds the repository can raise. */
  datatype Exception =
    | InvalidOperationException   // raised by SingleOrDefault on a second match
    | ApplicationException        // raised by Update when the unit of work already tracks entities
}
